=== FILE: README.md ===
# Entity collection of the Factions plugin, modelled in Dafny

`EntityCollection<E>` is the generic keyed store behind the plugin's
persistent records, players (`FPlayer`) among them. It keeps every attached
entity twice, in the collection `entities` and in the index `id2entity`
from string key to entity. It hands out numeric string keys from a counter
`nextId`, saves the entities that ask to be saved, and loads a store back
from its JSON file. When the store holds players, a load also runs a
one-time migration. That migration re-keys entries still filed under a
player name to the UUID a name resolver returns, and drops keys of neither
shape.

The model is a set of pure functions over an immutable `Store` record:

- `Basics`: an `Option` for nullable references. It also defines what it
  means for a sequence to be the iteration order of a key set.
- `Decimal`: `Integer.toString` and `Integer.parseInt` on counter values.
- `IdAllocator`:
  - the upward scan of `getNextId`
  - the floor raise of `updateNextIdForId`
  - the counter recomputation of `fillIds`
- `KeyFormat`: the two key shapes the migration tells apart (UUID key and
  legacy player name), plus the canonical text of a `java.util.UUID`.
- `EntityStore`: the store itself and its invariant `Valid`. It covers
  lookup, creation, attach, detach, the save filter and `fillIds`.
- `Migration`: the scan, re-key and drop logic of the players branch of
  `loadCore`.
- `Persistence`: `loadCore` and `loadFromDisc`, plus the save-then-load
  round trip.

Some inputs are parameters, because the store cannot see inside them:

- The entity factory `entityClass.newInstance()` is the parameter `made`:
  the instance the factory returns.
- The iteration order of a map (the index the subclass supplies, or the
  map Gson or the resolver returns) is an explicit sequence of its keys.
  The counter `fillIds` leaves depends on that order
  (`IdAllocator.FillOrderMatters`), so the model does not fix one.
- File reading and JSON parsing are the input `Disk`: missing, unreadable,
  or content that parses to a map, to `null` or to an exception.
- The name resolver's answer is the input `Resolution`: a name→UUID map
  with its iteration order, or an exception.

The model follows the code in these points:

- `updateNextIdForId(int)` raises the counter only when it is strictly
  below the id, so an id equal to the counter leaves it there and the
  counter need not be past the largest numeric key
  (`IdAllocator.RaiseFloor`). Keys stay unique all the same, because
  `getNextId` scans past taken keys.
- `getNextId` returns the least free key at or above the current counter,
  not the least free key overall, so keys freed below the counter are not
  reused (`EntityStore.NextId`).
- When the resolver throws, the exception is caught and the legacy names
  stay as loaded; only keys of neither shape are dropped
  (`Migration.ThrowKeepsNames`).
- `fetcher.call()` returns the whole response map or throws, so no name
  resolved before a failure is applied: resolution is all or nothing.
- A failed instantiation in `create(String)` is followed by `setId` on
  `null`; the model takes the factory as total.

## Model

| member | source | states |
|---|---|---|
| `EntityStore.NewStore` | src/main/java/com/massivecraft/factions/zcore/persist/EntityCollection.java:54-65 | A new store is empty, valid, keeps the requested creative flag and starts its counter at 1. |
| `EntityStore.Find` | src/main/java/com/massivecraft/factions/zcore/persist/EntityCollection.java:89 | The lookup finds an entity exactly when some attached entity carries the key, and then returns the entity filed under it. |
| `EntityStore.IsIdFree` | src/main/java/com/massivecraft/factions/zcore/persist/EntityCollection.java:333-340 | A key is free exactly when no attached entity carries it. |
| `EntityStore.Exists` | src/main/java/com/massivecraft/factions/zcore/persist/EntityCollection.java:99-103 | A null key names nothing. Otherwise the answer is true exactly when some attached entity carries the key. |
| `EntityStore.Attached` | src/main/java/com/massivecraft/factions/zcore/persist/EntityCollection.java:167-170 | Membership of the collection is the same as being indexed under one's own key. |
| `EntityStore.NextId` | src/main/java/com/massivecraft/factions/zcore/persist/EntityCollection.java:324-331 | The returned key is free and parses back to the new counter, which is at or above the old one. Every key in between is taken. Only the counter changes. |
| `EntityStore.Create` | src/main/java/com/massivecraft/factions/zcore/persist/EntityCollection.java:121-138 | Fails, changing nothing, exactly when the key is taken. Otherwise it files the new instance under the key in both structures, changes nothing else, and sets the counter as `updateNextIdForId` does (`IdAllocator.RaiseFloorFor`): one past the key's number when that number is above the counter, unchanged otherwise, and unchanged for a non-numeric key. |
| `EntityStore.CreateNext` | src/main/java/com/massivecraft/factions/zcore/persist/EntityCollection.java:116-119 | Always succeeds, under the key the allocator hands out, and adds just that entity. |
| `EntityStore.GetCreative` | src/main/java/com/massivecraft/factions/zcore/persist/EntityCollection.java:92-97 | A hit returns the stored entity and changes nothing. A miss creates the entity under the requested key and moves the counter as `create(String)` does, which never lowers it. |
| `EntityStore.Get` | src/main/java/com/massivecraft/factions/zcore/persist/EntityCollection.java:86-90 | A hit returns the stored entity. A miss returns null in a plain store, and in a creative one creates the entity and moves the counter as `create(String)` does. |
| `EntityStore.Attach` | src/main/java/com/massivecraft/factions/zcore/persist/EntityCollection.java:144-150 | An entity that has a key is returned and nothing changes. A keyless one gets the allocated key and is filed in both structures. |
| `EntityStore.DetachAsWritten` | src/main/java/com/massivecraft/factions/zcore/persist/EntityCollection.java:152-158 | The entity leaves the collection, and every key equal to its id leaves the index, whatever entity is filed there. Every other entry, the flag and the counter stay. |
| `EntityStore.DetachAsWrittenStrandsEntity` | src/main/java/com/massivecraft/factions/zcore/persist/EntityCollection.java:152-158 | Detaching a stale handle that shares a key with the live entity drops the live one from the index but leaves it in the collection, breaking the invariant. |
| `EntityStore.StaleHandleReachable` | src/main/java/com/massivecraft/factions/zcore/persist/EntityCollection.java:152-158 | From a fresh store, `create()`, `detach("1")`, `create()` hands out "1" twice, and detaching the first handle then leaves a store that breaks the invariant. |
| `EntityStore.Detach` | src/main/java/com/massivecraft/factions/zcore/persist/EntityCollection.java:152-158 | An attached entity leaves both structures and nothing else changes. Detaching anything else is a no-op. The invariant is kept. |
| `EntityStore.DetachAsWrittenAgreesWhenAttached` | src/main/java/com/massivecraft/factions/zcore/persist/EntityCollection.java:152-158 | On an attached entity, the Java code's detach equals the corrected one. |
| `EntityStore.DetachId` | src/main/java/com/massivecraft/factions/zcore/persist/EntityCollection.java:160-165 | An unknown key changes nothing. A known key's entity is removed from both structures. |
| `EntityStore.SaveSnapshot` | src/main/java/com/massivecraft/factions/zcore/persist/EntityCollection.java:189-196 | An attached entity is in the saved map, under its own key, exactly when `shouldBeSaved()` holds. Nothing else is in the map. |
| `EntityStore.FillIds` | src/main/java/com/massivecraft/factions/zcore/persist/EntityCollection.java:342-352 | Every entity takes its key as id and the store becomes valid. The counter is exactly the fold of `updateNextIdForId` from 1 over the keys in iteration order (`IdAllocator.CounterAfter`); so it is at least every numeric key, and it is 1 or one past one of them. |
| `EntityStore.CreateNextIncreases` | src/main/java/com/massivecraft/factions/zcore/persist/EntityCollection.java:116-119 | Two allocations in a row hand out strictly increasing numbers. |
| `EntityStore.CreateThenNextFollows` | src/main/java/com/massivecraft/factions/zcore/persist/EntityCollection.java:354-360 | On a fresh store, `create("5")` leaves the counter at 6, so the next `create()` hands out "6". |
| `EntityStore.CreateTwiceFails` | src/main/java/com/massivecraft/factions/zcore/persist/EntityCollection.java:121-123 | A second creation under the same key fails. |
| `EntityStore.KeysUnique` | src/main/java/com/massivecraft/factions/zcore/persist/EntityCollection.java:133-135 | In a valid store no two attached entities share a key. |
| `IdAllocator.ScanFrom` | src/main/java/com/massivecraft/factions/zcore/persist/EntityCollection.java:326-329 | The scan stops at the least value at or above its start whose key is free. |
| `IdAllocator.RaiseFloor` | src/main/java/com/massivecraft/factions/zcore/persist/EntityCollection.java:354-360 | The counter never falls and ends at least at the id. It stays exactly when the id is at most the counter, and otherwise becomes one past the id. |
| `IdAllocator.RaiseFloorFor` | src/main/java/com/massivecraft/factions/zcore/persist/EntityCollection.java:362-370 | A key that does not parse leaves the counter. A numeric key raises the floor to it, and leaves the counter exactly when it is at most the counter. |
| `IdAllocator.CounterAfter` | src/main/java/com/massivecraft/factions/zcore/persist/EntityCollection.java:344-351 | After the loop, the counter is at least its start and at least every numeric key visited. It is either the start or one past one of those keys. |
| `IdAllocator.FillOrderMatters` | src/main/java/com/massivecraft/factions/zcore/persist/EntityCollection.java:345-350 | Keys "3" and "4" leave the counter at 4 in one iteration order and at 5 in the other. |
| `Decimal.NatToString` | src/main/java/com/massivecraft/factions/zcore/persist/EntityCollection.java:330 | A rendered counter is a non-empty string of decimal digits. |
| `Decimal.ParseInvertsRender` | src/main/java/com/massivecraft/factions/zcore/persist/EntityCollection.java:366 | Parsing a rendered counter gives back the counter. |
| `Decimal.RenderInvertsParse` | src/main/java/com/massivecraft/factions/zcore/persist/EntityCollection.java:366 | A key that parses and has no leading zero is exactly the decimal form of the number it parses to. |
| `Decimal.RenderInjective` | src/main/java/com/massivecraft/factions/zcore/persist/EntityCollection.java:339 | Distinct counter values render as distinct keys. |
| `KeyFormat.ShapesDisjoint` | src/main/java/com/massivecraft/factions/zcore/persist/EntityCollection.java:238-240 | No key matches both the UUID pattern and the player-name pattern. |
| `KeyFormat.UuidToString` | src/main/java/com/massivecraft/factions/zcore/persist/EntityCollection.java:275 | The text of every UUID matches the UUID key pattern. |
| `Migration.RenderAll` | src/main/java/com/massivecraft/factions/zcore/persist/EntityCollection.java:275 | Every answered name has the text of its UUID, and that text is UUID-shaped. |
| `Migration.Classify` | src/main/java/com/massivecraft/factions/zcore/persist/EntityCollection.java:237-248 | The loaded keys split into three disjoint classes: UUID keys, legacy names (not UUID-shaped) and keys of neither shape. |
| `Migration.Refile` | src/main/java/com/massivecraft/factions/zcore/persist/EntityCollection.java:285-287 | The name's entity moves to the UUID key with its id updated. Every other entry stays. |
| `Migration.Rekey` | src/main/java/com/massivecraft/factions/zcore/persist/EntityCollection.java:273-288 | Every entry after the loop is untouched or sits on a UUID key matching its id. No non-canonical answered name survives, and unvisited keys stay. Only visited names are recorded as absent. |
| `Migration.RekeyExact` | src/main/java/com/massivecraft/factions/zcore/persist/EntityCollection.java:273-288 | Gives exactly the keys the loop leaves and exactly what each holds, entry by entry. It also gives exactly which names it records as absent. |
| `Migration.FinalRemovalExact` | src/main/java/com/massivecraft/factions/zcore/persist/EntityCollection.java:292-296 | Removing the collected invalid names leaves only the UUID keys and the re-keyed targets. |
| `Migration.Migrate` | src/main/java/com/massivecraft/factions/zcore/persist/EntityCollection.java:231-303 | Without legacy names the data comes back unchanged. Every entry is untouched or sits on a UUID key matching its id. After an answered migration every key is UUID-shaped. A UUID key nobody was answered under survives. |
| `Migration.MigrateExact` | src/main/java/com/massivecraft/factions/zcore/persist/EntityCollection.java:249-303 | After an answered migration the keys are exactly the loaded UUID keys plus the UUIDs of the answered names present. Untouched UUID entries keep their value, and each target holds a re-filed entity of a name that resolved to it. |
| `Migration.ResolvedNameRekeyed` | src/main/java/com/massivecraft/factions/zcore/persist/EntityCollection.java:273-288 | An answered legacy name is gone and its UUID key is present with a matching id. The key holds that name's entity when no other name resolves to the same UUID. |
| `Migration.MigrationDrops` | src/main/java/com/massivecraft/factions/zcore/persist/EntityCollection.java:266-296 | Once a legacy name is present, keys of neither shape are dropped. When the resolver answered, so are the names it left out. |
| `Migration.ThrowKeepsNames` | src/main/java/com/massivecraft/factions/zcore/persist/EntityCollection.java:289-296 | When the resolver throws, only keys of neither shape are dropped (and only if a legacy name exists). Legacy names and all values stay. |
| `Migration.MigrationIdempotent` | src/main/java/com/massivecraft/factions/zcore/persist/EntityCollection.java:249 | A second pass over migrated data returns it unchanged, whatever the resolver would answer. |
| `Migration.OnlyResolvedNameSurvives` | src/main/java/com/massivecraft/factions/zcore/persist/EntityCollection.java:237-296 | With no UUID keys and one answered legacy name, the result is exactly that name's entity under its UUID key. |
| `Migration.AliceKeptBobDropped` | src/main/java/com/massivecraft/factions/zcore/persist/EntityCollection.java:237-296 | With "alice" resolved and "bob!!" of neither shape, only alice's entity remains, under her UUID key. |
| `Persistence.LoadCoreAsWritten` | src/main/java/com/massivecraft/factions/zcore/persist/EntityCollection.java:218-318 | Raises exactly when a players file has content that does not parse to a map. A missing file loads as empty, a failed read gives null, unparsable content in any other store gives null, and a parsed map is migrated on the players path. |
| `Persistence.MalformedPlayersFileRaises` | src/main/java/com/massivecraft/factions/zcore/persist/EntityCollection.java:231-233 | Malformed JSON in a players file makes the Java code's load raise. In any other store it reports failure. |
| `Persistence.LoadCore` | src/main/java/com/massivecraft/factions/zcore/persist/EntityCollection.java:218-318 | A missing file loads as empty. A failed read or a failed parse gives null. A parsed players map is migrated, and any other parsed map is returned as is. |
| `Persistence.LoadCoreAgreesUnlessRaised` | src/main/java/com/massivecraft/factions/zcore/persist/EntityCollection.java:218-318 | Wherever the Java code's `loadCore` returns, it returns what the corrected one does. It raises exactly on an unparsable players file. |
| `Persistence.LoadFromDisc` | src/main/java/com/massivecraft/factions/zcore/persist/EntityCollection.java:206-216 | A null load reports failure and leaves the store. A map replaces both structures with ids set from keys and gives a valid store, and the counter is exactly the fold `fillIds` computes over the map's iteration order. |
| `Persistence.SaveThenLoad` | src/main/java/com/massivecraft/factions/zcore/persist/EntityCollection.java:184-216 | Saving and loading back restores exactly the entities that asked to be saved, under their keys. The file content is taken to parse back to the map that was written (Gson write-then-read as the identity). |

## Left out

- Writing files and JSON, which are I/O:
  - Gson serialisation and `DiscUtil` reads and writes.
  - The `players.json.old` backup (lines 252-260) and the re-save after migration (line 300).
  - The `_bad` quarantine rename (lines 310-314).
  - The model keeps only their effect on what `loadCore` returns.
- Logging, which has no effect on state.
- `UUIDFetcher`, a network call. Its answer is the input `Resolution`.
- An exception raised part-way through the re-key loop, such as a null UUID in the response. The model's `Threw` is an exception from `fetcher.call()` itself.
- The `EM` registry call in the constructor (line 64). It is global state outside the store.
- Concurrency: `synchronized` and the `saveIsRunning` flag. The model is sequential.
- `getBestIdMatch`, which depends on `TextUtil`. `TextUtil` is not part of this model.
- `detached`, `get()` and `getMap()`, which are trivial negations and accessors.
- The setters for `creative`, `gson` and `file`.
- The `preDetach` and `postDetach` hooks. They are subclass overrides that are not part of this model; the model assumes they do not change the store.
- Null keys passed to `get`, `create` or `detach(String)`. Only `exists` models a null key.
- Null values in a loaded map.
- Entity identity. `Entity` is a value, so two equal entities are one, and the collection is a set. The Java collection is whatever `Collection` the subclass supplies, compared with `equals`.
- Decimal.ParseNat accepts only ASCII digits without a sign and has no 32-bit limit. `Integer.parseInt` also accepts a leading `+` and other Unicode digits, and rejects values past `Integer.MAX_VALUE`; those keys are not modelled. A leading `-` gives a negative number, which never raises the counter, so it matches this model.
- IdAllocator.RaiseFloor does not model the `int` overflow of `id + 1` or of the counter. Counters are unbounded naturals.
- EntityStore.Create takes the factory as total. The null dereference that follows a failed instantiation in `create(String)` is not modelled.
- EntityStore.Create assumes the index compares keys by string equality. A subclass may supply a map with its own comparator (a case-insensitive one, say); then `isIdFree` goes through that comparator, and `create("Alice")` returns null when "alice" is filed, where the model files a second entity.
- `isIdFree(int)` is not a separate member. It is folded into the scan `IdAllocator.ScanFrom`, which tests the rendered counter.
- EntityStore.NewStore assumes the subclass passes empty `entities` and `id2entity` to the constructor (lines 54-65), which adopts whatever it is given.
- Persistence.SaveThenLoad assumes Gson's write-then-read is the identity on the saved map: the load is fed the map that was saved.
- The "FPlayer" type test on `getMapType()` is the boolean `legacyKeyed`.

## Findings

| source | as written | input that shows it | evidently intended | confidence | as-written member | corrected member |
|---|---|---|---|---|---|---|
| src/main/java/com/massivecraft/factions/zcore/persist/EntityCollection.java:152-158 | `detach(E)` removes the entity from the collection and removes whatever the index holds under the entity's key, even when that is a different entity | the store holds entity A under "1"; a stale handle B with id "1" that is not attached is detached; A leaves the index but stays in the collection | detach only an attached entity, and leave the store unchanged otherwise | not executed | `EntityStore.StaleHandleReachable` | `EntityStore.Detach` |
| src/main/java/com/massivecraft/factions/zcore/persist/EntityCollection.java:231-233 | in the players branch the JSON parse sits outside the `try` of lines 305-317, so malformed content raises, and blank content (parsed to null) fails on `data.keySet()` | a players file whose content is not valid JSON | like every other store, set the file aside and report failure (return null) | not executed | `Persistence.MalformedPlayersFileRaises` | `Persistence.LoadCore` |

=== FILE: basics.dfy ===
/** Shared vocabulary: an optional value, standing for a nullable Java
    reference, and what it means for a sequence to be the iteration order
    of a finite set (the key set of a java.util.Map). */
module Basics {

  /** A value that may be absent; `None` plays the part of `null`. */
  datatype Option<+T> = None | Some(value: T)

  /** The elements a sequence visits. */
  ghost function Elements<T>(xs: seq<T>): set<T>
  {
    set x | x in xs
  }

  /** `order` visits every element of `keys` exactly once and nothing else. */
  ghost predicate IsEnumeration<T>(order: seq<T>, keys: set<T>)
  {
    && (forall i, j :: 0 <= i < j < |order| ==> order[i] != order[j])
    && Elements(order) == keys
  }
}

=== FILE: decimal.dfy ===
/** Decimal rendering and parsing of counter values: `Integer.toString` and
    `Integer.parseInt` as the store uses them for its numeric keys.  Parsing
    is restricted to non-empty strings of ASCII digits and yields an
    unbounded natural number. */
module Decimal {
  import opened Basics

  predicate IsDigit(c: char)
  {
    '0' <= c <= '9'
  }

  predicate AllDigits(s: string)
  {
    forall i :: 0 <= i < |s| ==> IsDigit(s[i])
  }

  function DigitChar(d: nat): (c: char)
    requires d < 10
    ensures IsDigit(c) && c as int - '0' as int == d
  {
    ('0' as int + d) as char
  }

  /** The decimal rendering of `n`: most significant digit first, no
      leading zeros. */
  function NatToString(n: nat): (s: string)
    ensures |s| >= 1 && AllDigits(s)
    decreases n
  {
    if n < 10 then [DigitChar(n)] else NatToString(n / 10) + [DigitChar(n % 10)]
  }

  /** The value of a string of digits, most significant first. */
  function DigitsValue(s: string): nat
    requires AllDigits(s)
    decreases |s|
  {
    if |s| == 0 then 0
    else DigitsValue(s[..|s| - 1]) * 10 + (s[|s| - 1] as int - '0' as int)
  }

  /** The number a key denotes, or `None` when the key is not a decimal
      numeral (where `Integer.parseInt` throws `NumberFormatException`). */
  function ParseNat(s: string): Option<nat>
  {
    if |s| >= 1 && AllDigits(s) then Some(DigitsValue(s)) else None
  }

  /** Parsing undoes rendering. */
  lemma {:induction false} ParseInvertsRender(n: nat)
    ensures ParseNat(NatToString(n)) == Some(n)
    decreases n
  {
    var s := NatToString(n);
    if n >= 10 {
      var p := NatToString(n / 10);
      ParseInvertsRender(n / 10);
      assert s[..|s| - 1] == p;
      assert DigitsValue(s) == DigitsValue(p) * 10 + n % 10;
    } else {
      assert s[..|s| - 1] == [];
    }
  }

  /** A numeral without a leading zero denotes at least 1 unless it is "0". */
  lemma {:induction false} LeadingDigitPositive(s: string)
    requires |s| >= 1 && AllDigits(s) && s[0] != '0'
    ensures DigitsValue(s) >= 1
    decreases |s|
  {
    if |s| > 1 {
      var p := s[..|s| - 1];
      assert p[0] == s[0];
      LeadingDigitPositive(p);
    }
  }

  /** Rendering undoes parsing on canonical numerals: a key that parses and
      has no leading zero is the decimal form of the number it denotes, so
      such a key and its counter value determine each other. */
  lemma {:induction false} RenderInvertsParse(s: string)
    requires ParseNat(s).Some? && (s[0] != '0' || |s| == 1)
    ensures NatToString(ParseNat(s).value) == s
    decreases |s|
  {
    var n := DigitsValue(s);
    var d := s[|s| - 1] as int - '0' as int;
    if |s| == 1 {
      assert s[..0] == [];
      assert DigitsValue(s[..0]) == 0;
      assert n == d;
      assert [DigitChar(d)] == s;
    } else {
      var p := s[..|s| - 1];
      assert p[0] == s[0];
      LeadingDigitPositive(p);
      RenderInvertsParse(p);
      assert n == DigitsValue(p) * 10 + d;
      assert n / 10 == DigitsValue(p) && n % 10 == d;
      assert p + [DigitChar(d)] == s;
    }
  }

  /** Distinct counter values render as distinct keys. */
  lemma RenderInjective(a: nat, b: nat)
    ensures NatToString(a) == NatToString(b) ==> a == b
  {
    ParseInvertsRender(a);
    ParseInvertsRender(b);
  }
}

=== FILE: entitystore.dfy ===
/** The in-memory entity store of `EntityCollection`: the collection
    `entities`, the index `id2entity`, the `creative` flag and the `nextId`
    counter, with lookup, creation, attach and detach as pure state
    transformers. */
module EntityStore {
  import opened Basics
  import opened Decimal
  import opened IdAllocator

  /** An entity as the store sees it: its key (`None` until it is attached),
      what `shouldBeSaved()` currently answers, and the rest of its fields,
      which the store never looks at. */
  datatype Entity<S> = Entity(id: Option<string>, shouldBeSaved: bool, state: S)

  datatype Store<S(==)> = Store(
    entities: set<Entity<S>>,
    id2entity: map<string, Entity<S>>,
    creative: bool,
    nextId: nat)

  /** The store after an operation together with what the operation
      returned. */
  datatype Reply<S(==), T> = Reply(store: Store<S>, value: T)

  /** Every entity is in both structures or in neither, every key names an
      entity carrying that key, and the counter starts at 1. */
  ghost predicate Valid<S>(s: Store<S>)
  {
    && s.nextId >= 1
    && s.entities == s.id2entity.Values
    && forall k :: k in s.id2entity ==> s.id2entity[k].id == Some(k)
  }

  /** `t` is `s` with `e` filed under the previously free key `k`, and
      nothing else changed. */
  ghost predicate Added<S>(s: Store<S>, t: Store<S>, k: string, e: Entity<S>)
  {
    && k !in s.id2entity
    && e !in s.entities
    && t.id2entity.Keys == s.id2entity.Keys + {k}
    && t.id2entity[k] == e
    && (forall j :: j in s.id2entity ==> t.id2entity[j] == s.id2entity[j])
    && t.entities == s.entities + {e}
    && t.creative == s.creative
  }

  /** `t` is `s` without the entity filed under `k`, and nothing else
      changed. */
  ghost predicate Removed<S>(s: Store<S>, t: Store<S>, k: string)
    requires k in s.id2entity
  {
    && t.id2entity.Keys == s.id2entity.Keys - {k}
    && (forall j :: j in t.id2entity ==> t.id2entity[j] == s.id2entity[j])
    && t.entities == s.entities - {s.id2entity[k]}
    && s.id2entity[k] !in t.entities
    && t.creative == s.creative
    && t.nextId == s.nextId
  }

  /** `k` is the key `getNextId` hands out in `s`: the decimal form of the
      new counter `t.nextId`, which is the least value at or above the old
      counter whose key is free. */
  ghost predicate AllocatedFrom<S>(s: Store<S>, t: Store<S>, k: string)
  {
    && k == NatToString(t.nextId)
    && ParseNat(k) == Some(t.nextId)
    && t.nextId >= s.nextId
    && k !in s.id2entity
    && forall m :: s.nextId <= m < t.nextId ==> NatToString(m) in s.id2entity
  }

  lemma ValuesAfterInsert<S>(m: map<string, Entity<S>>, k: string, e: Entity<S>)
    requires k !in m
    ensures m[k := e].Values == m.Values + {e}
  {
    var m' := m[k := e];
    forall v | v in m'.Values ensures v in m.Values + {e} {
      var j :| j in m' && m'[j] == v;
      if j != k {
        assert m[j] == v;
      }
    }
    forall v | v in m.Values + {e} ensures v in m'.Values {
      if v != e {
        var j :| j in m && m[j] == v;
        assert m'[j] == v;
      } else {
        assert m'[k] == e;
      }
    }
  }

  lemma ValuesAfterRemove<S>(s: Store<S>, k: string)
    requires Valid(s) && k in s.id2entity
    ensures (s.id2entity - {k}).Values == s.id2entity.Values - {s.id2entity[k]}
  {
    var m := s.id2entity;
    var m' := m - {k};
    forall v | v in m'.Values ensures v in m.Values - {m[k]} {
      var j :| j in m' && m'[j] == v;
      assert m[j] == v && v.id == Some(j);
    }
    forall v | v in m.Values - {m[k]} ensures v in m'.Values {
      var j :| j in m && m[j] == v;
      assert j != k;
      assert m'[j] == v;
    }
  }

  /** The empty store the constructor builds. */
  function NewStore<S(==)>(creative: bool): (s: Store<S>)
    ensures Valid(s) && s.creative == creative
    ensures s.entities == {} && s.id2entity == map[] && s.nextId == 1
  {
    Store({}, map[], creative, 1)
  }

  /** `id2entity.get(id)`: the entity filed under the key, or `null`. */
  function Find<S(==)>(s: Store<S>, id: string): (r: Option<Entity<S>>)
    requires Valid(s)
    ensures r.Some? <==> exists e :: e in s.entities && e.id == Some(id)
    ensures r.Some? ==> r.value in s.entities && r.value.id == Some(id) && r.value == s.id2entity[id]
  {
    if id in s.id2entity then Some(s.id2entity[id]) else None
  }

  /** `isIdFree(String)`: no attached entity carries the key. */
  function IsIdFree<S(==)>(s: Store<S>, id: string): (b: bool)
    requires Valid(s)
    ensures b <==> forall e :: e in s.entities ==> e.id != Some(id)
  {
    if id in s.id2entity then
      assert s.id2entity[id] in s.entities;
      false
    else
      true
  }

  /** `exists`: a null key names nothing; otherwise the key names an
      attached entity. */
  function Exists<S(==)>(s: Store<S>, id: Option<string>): (b: bool)
    requires Valid(s)
    ensures b <==> id.Some? && exists e :: e in s.entities && e.id == id
  {
    match id
    case None => false
    case Some(k) =>
      if k in s.id2entity then
        assert s.id2entity[k] in s.entities;
        true
      else
        false
  }

  /** `attached`: membership of the collection, which in a valid store is
      the same as being indexed under one's own key. */
  function Attached<S(==)>(s: Store<S>, e: Entity<S>): (b: bool)
    requires Valid(s)
    ensures b <==> e.id.Some? && e.id.value in s.id2entity && s.id2entity[e.id.value] == e
  {
    e in s.entities
  }

  /** `getNextId`: the counter moves up to the first free numeric key,
      which is returned; the entities are untouched. */
  function NextId<S(==)>(s: Store<S>): (r: Reply<S, string>)
    requires Valid(s)
    ensures Valid(r.store)
    ensures r.store.entities == s.entities && r.store.id2entity == s.id2entity
    ensures r.store.creative == s.creative
    ensures AllocatedFrom(s, r.store, r.value)
  {
    var n := ScanFrom(s.id2entity.Keys, s.nextId);
    ParseInvertsRender(n);
    Reply(s.(nextId := n), NatToString(n))
  }

  /** `create(String)`: fails on a taken key and changes nothing; otherwise
      files the factory's new instance `made` under the key and raises the
      counter floor for it. */
  function Create<S(==)>(s: Store<S>, id: string, made: Entity<S>): (r: Reply<S, Option<Entity<S>>>)
    requires Valid(s)
    ensures Valid(r.store)
    ensures r.value.None? <==> id in s.id2entity
    ensures r.value.None? ==> r.store == s
    ensures r.value.Some? ==>
              && r.value.value == made.(id := Some(id))
              && Added(s, r.store, id, r.value.value)
              && r.store.nextId == RaiseFloorFor(s.nextId, id)
  {
    if id in s.id2entity then Reply(s, None)
    else
      var e := made.(id := Some(id));
      ValuesAfterInsert(s.id2entity, id, e);
      Reply(Store(s.entities + {e}, s.id2entity[id := e], s.creative, RaiseFloorFor(s.nextId, id)), Some(e))
  }

  /** `create()`: always succeeds, under the key `getNextId` allocates. */
  function CreateNext<S(==)>(s: Store<S>, made: Entity<S>): (r: Reply<S, Entity<S>>)
    requires Valid(s)
    ensures Valid(r.store)
    ensures r.value.id.Some?
    ensures r.value == made.(id := r.value.id)
    ensures AllocatedFrom(s, r.store, r.value.id.value)
    ensures Added(s, r.store, r.value.id.value, r.value)
  {
    var next := NextId(s);
    var created := Create(next.store, next.value, made);
    Reply(created.store, created.value.value)
  }

  /** `getCreative`: an existing entity is returned as is; on a miss the
      factory's instance `made` is created under the requested key. */
  function GetCreative<S(==)>(s: Store<S>, id: string, made: Entity<S>): (r: Reply<S, Entity<S>>)
    requires Valid(s)
    ensures Valid(r.store)
    ensures id in s.id2entity ==> r.store == s && r.value == s.id2entity[id]
    ensures id !in s.id2entity ==>
              && r.value == made.(id := Some(id))
              && Added(s, r.store, id, r.value)
              && r.store.nextId == RaiseFloorFor(s.nextId, id)
  {
    if id in s.id2entity then Reply(s, s.id2entity[id])
    else
      var created := Create(s, id, made);
      Reply(created.store, created.value.value)
  }

  /** `get(String)`: a plain lookup, except that a creative store creates
      the entity on a miss. */
  function Get<S(==)>(s: Store<S>, id: string, made: Entity<S>): (r: Reply<S, Option<Entity<S>>>)
    requires Valid(s)
    ensures Valid(r.store)
    ensures id in s.id2entity ==> r.store == s && r.value == Some(s.id2entity[id])
    ensures id !in s.id2entity && !s.creative ==> r.store == s && r.value == None
    ensures id !in s.id2entity && s.creative ==>
              && r.value == Some(made.(id := Some(id)))
              && Added(s, r.store, id, made.(id := Some(id)))
              && r.store.nextId == RaiseFloorFor(s.nextId, id)
  {
    if s.creative then
      var got := GetCreative(s, id, made);
      Reply(got.store, Some(got.value))
    else
      Reply(s, Find(s, id))
  }

  /** `attach`: an entity that already has a key is left alone and nothing
      changes; otherwise it receives the key `getNextId` allocates and is
      filed in both structures. */
  function Attach<S(==)>(s: Store<S>, e: Entity<S>): (r: Reply<S, Entity<S>>)
    requires Valid(s)
    ensures Valid(r.store)
    ensures e.id.Some? ==> r.store == s && r.value == e
    ensures e.id.None? ==>
              && r.value.id.Some?
              && r.value == e.(id := r.value.id)
              && AllocatedFrom(s, r.store, r.value.id.value)
              && Added(s, r.store, r.value.id.value, r.value)
  {
    if e.id.Some? then Reply(s, e)
    else
      var next := NextId(s);
      var k := next.value;
      var e' := e.(id := Some(k));
      ValuesAfterInsert(s.id2entity, k, e');
      Reply(next.store.(entities := s.entities + {e'}, id2entity := s.id2entity[k := e']), e')
  }

  /** `detach(E)` exactly as `EntityCollection` writes it: the entity
      leaves the collection and whatever is filed under its key leaves the
      index, whether or not that is the same entity. */
  function DetachAsWritten<S(==)>(s: Store<S>, e: Entity<S>): (r: Store<S>)
    ensures r.entities == s.entities - {e}
    ensures forall k :: k in r.id2entity <==> k in s.id2entity && e.id != Some(k)
    ensures forall k :: k in r.id2entity ==> r.id2entity[k] == s.id2entity[k]
    ensures r.creative == s.creative && r.nextId == s.nextId
  {
    s.(entities := s.entities - {e},
       id2entity := if e.id.Some? then s.id2entity - {e.id.value} else s.id2entity)
  }

  /** A stale handle breaks the store: the entity filed under "1" is not
      `e`, yet detaching `e` drops it from the index while it stays in the
      collection.  Such a handle arises when a detached entity's key is
      allocated again, since the counter does not move past freed keys. */
  lemma DetachAsWrittenStrandsEntity<S>(x: S)
    ensures var live := Entity(Some("1"), true, x);
            var stale := Entity(Some("1"), false, x);
            var s := Store({live}, map["1" := live], false, 1);
            && Valid(s)
            && !Attached(s, stale)
            && !Valid(DetachAsWritten(s, stale))
            && live in DetachAsWritten(s, stale).entities
            && "1" !in DetachAsWritten(s, stale).id2entity
  {
    var live := Entity(Some("1"), true, x);
    var stale := Entity(Some("1"), false, x);
    var s := Store({live}, map["1" := live], false, 1);
    assert s.id2entity.Values == {live} by {
      assert s.id2entity["1"] == live;
    }
    var t := DetachAsWritten(s, stale);
    assert t.id2entity == map[];
    assert live in t.entities;
  }

  /** The stale handle arises from ordinary calls: `create()` files a
      first entity under "1", `detach("1")` frees the key, and the next
      `create()` hands out "1" again because the counter never moved past
      it.  Detaching the first handle then strands the second entity. */
  lemma StaleHandleReachable<S>(a: Entity<S>, b: Entity<S>)
    requires a.id.None? && b.id.None?
    requires a.shouldBeSaved != b.shouldBeSaved || a.state != b.state
    ensures var first := CreateNext(NewStore<S>(false), a);
            var freed := DetachId(first.store, "1");
            var second := CreateNext(freed, b);
            && first.value.id == Some("1")
            && second.value.id == Some("1")
            && Attached(second.store, second.value)
            && !Attached(second.store, first.value)
            && !Valid(DetachAsWritten(second.store, first.value))
  {
    var s0 := NewStore<S>(false);
    assert NatToString(1) == "1";
    var first := CreateNext(s0, a);
    assert first.store.id2entity.Keys == {"1"};
    var freed := DetachId(first.store, "1");
    assert freed.id2entity == map[] && freed.nextId == 1;
    var second := CreateNext(freed, b);
    assert second.value != first.value;
    var t := DetachAsWritten(second.store, first.value);
    assert t.id2entity == map[];
    assert second.value in t.entities;
  }

  /** `detach(E)` as intended: an attached entity leaves both structures
      and every other entry stays; anything else is a no-op. */
  function Detach<S(==)>(s: Store<S>, e: Entity<S>): (r: Store<S>)
    requires Valid(s)
    ensures Valid(r)
    ensures !Attached(s, e) ==> r == s
    ensures Attached(s, e) ==> e.id.Some? && e.id.value in s.id2entity && Removed(s, r, e.id.value)
  {
    if e in s.entities then
      var k :| k in s.id2entity && s.id2entity[k] == e;
      ValuesAfterRemove(s, k);
      DetachAsWritten(s, e)
    else
      s
  }

  /** On an attached entity the Java code's `detach(E)` is the intended
      one. */
  lemma DetachAsWrittenAgreesWhenAttached<S>(s: Store<S>, e: Entity<S>)
    requires Valid(s) && Attached(s, e)
    ensures DetachAsWritten(s, e) == Detach(s, e)
  {
  }

  /** `detach(String)`: an unknown key changes nothing; otherwise the entity
      filed under it is detached. */
  function DetachId<S(==)>(s: Store<S>, id: string): (r: Store<S>)
    requires Valid(s)
    ensures Valid(r)
    ensures id !in s.id2entity ==> r == s
    ensures id in s.id2entity ==> id !in r.id2entity && Removed(s, r, id)
  {
    if id in s.id2entity then Detach(s, s.id2entity[id]) else s
  }

  /** The filter of `saveToDisc`: every attached entity whose
      `shouldBeSaved()` holds, keyed by its id, and nothing else. */
  function SaveSnapshot<S(==)>(s: Store<S>): (m: map<string, Entity<S>>)
    requires Valid(s)
    ensures forall e :: e in s.entities ==>
              (e.shouldBeSaved <==> e.id.Some? && e.id.value in m && m[e.id.value] == e)
    ensures forall k :: k in m ==> m[k] in s.entities && m[k].shouldBeSaved && m[k].id == Some(k)
  {
    map k | k in s.id2entity && s.id2entity[k].shouldBeSaved :: s.id2entity[k]
  }

  /** `fillIds`, applied right after a load has put the same entities into
      both structures: every entity takes its key as id and the counter is
      recomputed from 1 over the keys in iteration order `order`. */
  function FillIds<S(==)>(s: Store<S>, order: seq<string>): (r: Store<S>)
    requires s.entities == s.id2entity.Values
    requires IsEnumeration(order, s.id2entity.Keys)
    ensures Valid(r) && r.creative == s.creative
    ensures r.id2entity.Keys == s.id2entity.Keys
    ensures forall k :: k in s.id2entity ==> r.id2entity[k] == s.id2entity[k].(id := Some(k))
    ensures forall k :: k in s.id2entity && ParseNat(k).Some? ==> r.nextId >= ParseNat(k).value
    ensures r.nextId == CounterAfter(1, order)
    ensures r.nextId == 1
            || exists k :: k in s.id2entity && ParseNat(k).Some? && r.nextId == ParseNat(k).value + 1
  {
    var fixed := map k | k in s.id2entity :: s.id2entity[k].(id := Some(k));
    var n := CounterAfter(1, order);
    assert forall k :: k in s.id2entity ==> k in Elements(order);
    Store(fixed.Values, fixed, s.creative, n)
  }

  /** Allocations without an intervening detach hand out strictly
      increasing numbers: `create()` leaves the counter on the key it just
      used, so the next scan starts past it. */
  lemma CreateNextIncreases<S>(s: Store<S>, a: Entity<S>, b: Entity<S>)
    requires Valid(s)
    ensures var first := CreateNext(s, a);
            var second := CreateNext(first.store, b);
            second.store.nextId > first.store.nextId
  {
    var first := CreateNext(s, a);
    assert NatToString(first.store.nextId) in first.store.id2entity;
  }

  /** An explicit numeric key moves allocation past it: on a fresh store,
      `create("5")` leaves the counter at 6, so `create()` hands out "6". */
  lemma CreateThenNextFollows<S>(a: Entity<S>, b: Entity<S>)
    ensures var first := Create(NewStore<S>(false), "5", a);
            && first.store.nextId == 6
            && CreateNext(first.store, b).value.id == Some("6")
  {
    assert ParseNat("5") == Some(5);
    assert NatToString(6) == "6";
  }

  /** At most one creation succeeds for a key. */
  lemma CreateTwiceFails<S>(s: Store<S>, id: string, a: Entity<S>, b: Entity<S>)
    requires Valid(s)
    ensures var first := Create(s, id, a);
            Create(first.store, id, b).value.None?
  {
  }

  /** In a valid store no two attached entities share a key. */
  lemma KeysUnique<S>(s: Store<S>, e1: Entity<S>, e2: Entity<S>)
    requires Valid(s) && e1 in s.entities && e2 in s.entities && e1.id == e2.id
    ensures e1 == e2
  {
    var k1 :| k1 in s.id2entity && s.id2entity[k1] == e1;
    var k2 :| k2 in s.id2entity && s.id2entity[k2] == e2;
  }
}

=== FILE: idallocator.dfy ===
/** The integer key allocator of the store: the upward scan of
    `getNextId`, the floor raise of `updateNextIdForId` and the counter
    recomputation of `fillIds`. */
module IdAllocator {
  import opened Basics
  import opened Decimal

  /** The keys that denote a number at or above `n`; they bound how far the
      scan from `n` can still go. */
  ghost function NumericKeysFrom(keys: set<string>, n: nat): set<string>
  {
    set k | k in keys && ParseNat(k).Some? && ParseNat(k).value >= n
  }

  lemma NumericKeysShrink(keys: set<string>, n: nat)
    requires NatToString(n) in keys
    ensures |NumericKeysFrom(keys, n + 1)| < |NumericKeysFrom(keys, n)|
  {
    ParseInvertsRender(n);
    var above := NumericKeysFrom(keys, n + 1);
    var here := NumericKeysFrom(keys, n);
    assert NatToString(n) in here && NatToString(n) !in above;
    assert above + {NatToString(n)} <= here;
    assert |above + {NatToString(n)}| == |above| + 1;
    SubsetCardinality(above + {NatToString(n)}, here);
  }

  lemma SubsetCardinality<T>(a: set<T>, b: set<T>)
    requires a <= b
    ensures |a| <= |b|
  {
    assert b == a + (b - a);
  }

  /** The scan of `getNextId`: the least counter value at or above `n`
      whose decimal key is not taken. */
  function ScanFrom(keys: set<string>, n: nat): (r: nat)
    ensures r >= n && NatToString(r) !in keys
    ensures forall m :: n <= m < r ==> NatToString(m) in keys
    decreases |NumericKeysFrom(keys, n)|
  {
    if NatToString(n) !in keys then n
    else
      NumericKeysShrink(keys, n);
      ScanFrom(keys, n + 1)
  }

  /** `updateNextIdForId(int)`: the counter only ever rises, and ends at
      least at `id`. */
  function RaiseFloor(counter: nat, id: nat): (r: nat)
    ensures r >= counter && r >= id
    ensures r == counter <==> id <= counter
    ensures r != counter ==> r == id + 1
  {
    if counter < id then id + 1 else counter
  }

  /** `updateNextIdForId(String)`: a key that is not a numeral leaves the
      counter where it was. */
  function RaiseFloorFor(counter: nat, id: string): (r: nat)
    ensures ParseNat(id).None? ==> r == counter
    ensures ParseNat(id).Some? ==> r >= counter && r >= ParseNat(id).value
    ensures ParseNat(id).Some? ==> (r == counter <==> ParseNat(id).value <= counter)
    ensures r == counter || (ParseNat(id).Some? && r == ParseNat(id).value + 1)
  {
    match ParseNat(id)
    case None => counter
    case Some(v) => RaiseFloor(counter, v)
  }

  /** The counter after raising the floor for each key of `order` in turn,
      first to last (the loop of `fillIds`).  It is at least every numeric
      key visited and is either the start value or one past one of them. */
  function CounterAfter(counter: nat, order: seq<string>): (r: nat)
    ensures r >= counter
    ensures forall i :: 0 <= i < |order| && ParseNat(order[i]).Some? ==> r >= ParseNat(order[i]).value
    ensures r == counter
            || exists i :: 0 <= i < |order| && ParseNat(order[i]).Some? && r == ParseNat(order[i]).value + 1
    decreases |order|
  {
    if order == [] then counter
    else RaiseFloorFor(CounterAfter(counter, order[..|order| - 1]), order[|order| - 1])
  }

  /** The counter `fillIds` leaves depends on the iteration order: keys
      "3" and "4" give 4 in one order and 5 in the other. */
  lemma FillOrderMatters()
    ensures CounterAfter(1, ["3", "4"]) == 4
    ensures CounterAfter(1, ["4", "3"]) == 5
  {
    assert ["3", "4"][..1] == ["3"];
    assert ["4", "3"][..1] == ["4"];
    assert ParseNat("3") == Some(3);
    assert ParseNat("4") == Some(4);
  }
}

=== FILE: keyformat.dfy ===
/** The two key shapes the legacy migration distinguishes, and the canonical
    text form of a `java.util.UUID`.
    - a canonical key matches `[0-9a-f]{8}-[0-9a-f]{4}-[0-9a-f]{4}-[0-9a-f]{4}-[0-9a-f]{12}`;
    - a legacy player name matches `[a-zA-Z0-9_]{2,16}`;
    both as whole-string matches (`String.matches`). */
module KeyFormat {

  predicate IsLowerHex(c: char)
  {
    '0' <= c <= '9' || 'a' <= c <= 'f'
  }

  /** `s` is exactly `n` lower-case hexadecimal digits. */
  predicate HexRun(s: string, n: nat)
  {
    |s| == n && forall i :: 0 <= i < |s| ==> IsLowerHex(s[i])
  }

  /** A key already in canonical (UUID) form. */
  predicate IsUuidKey(s: string)
  {
    && |s| == 36
    && HexRun(s[..8], 8) && s[8] == '-'
    && HexRun(s[9..13], 4) && s[13] == '-'
    && HexRun(s[14..18], 4) && s[18] == '-'
    && HexRun(s[19..23], 4) && s[23] == '-'
    && HexRun(s[24..], 12)
  }

  predicate IsNameChar(c: char)
  {
    'a' <= c <= 'z' || 'A' <= c <= 'Z' || '0' <= c <= '9' || c == '_'
  }

  /** A key shaped like a pre-UUID player name. */
  predicate IsLegacyName(s: string)
  {
    2 <= |s| <= 16 && forall i :: 0 <= i < |s| ==> IsNameChar(s[i])
  }

  /** No key has both shapes, so the three-way split of the migration is a
      partition. */
  lemma ShapesDisjoint(s: string)
    ensures !(IsUuidKey(s) && IsLegacyName(s))
  {
  }

  /** A `java.util.UUID`: the bit patterns of its most and least significant
      longs, read as unsigned numbers.  Digits above bit 63 are never
      rendered. */
  datatype Uuid = Uuid(mostSigBits: nat, leastSigBits: nat)

  function HexDigit(d: nat): (c: char)
    requires d < 16
    ensures IsLowerHex(c)
  {
    if d < 10 then ('0' as int + d) as char else ('a' as int + d - 10) as char
  }

  /** The lowest `width` hexadecimal digits of `n`, zero padded: the
      private `UUID.digits` helper. */
  function LowHex(n: nat, width: nat): (s: string)
    ensures HexRun(s, width)
    decreases width
  {
    if width == 0 then [] else LowHex(n / 16, width - 1) + [HexDigit(n % 16)]
  }

  /** Joining five hexadecimal groups of widths 8, 4, 4, 4 and 12 with
      dashes gives a canonical key. */
  lemma JoinedGroupsAreUuid(a: string, b: string, c: string, d: string, e: string)
    requires HexRun(a, 8) && HexRun(b, 4) && HexRun(c, 4) && HexRun(d, 4) && HexRun(e, 12)
    ensures IsUuidKey(a + ['-'] + b + ['-'] + c + ['-'] + d + ['-'] + e)
  {
    var s1 := a + ['-'];
    var s2 := s1 + b + ['-'];
    var s3 := s2 + c + ['-'];
    var s4 := s3 + d + ['-'];
    var s := s4 + e;
    assert |s1| == 9 && |s2| == 14 && |s3| == 19 && |s4| == 24;
    assert s[..8] == a;
    assert s[9..13] == b;
    assert s[14..18] == c;
    assert s[19..23] == d;
    assert s[24..] == e;
  }

  /** `UUID.toString`: every rendered UUID is a canonical key. */
  function UuidToString(u: Uuid): (s: string)
    ensures IsUuidKey(s)
  {
    var a := LowHex(u.mostSigBits / 0x1_0000_0000, 8);
    var b := LowHex(u.mostSigBits / 0x1_0000, 4);
    var c := LowHex(u.mostSigBits, 4);
    var d := LowHex(u.leastSigBits / 0x1_0000_0000_0000, 4);
    var e := LowHex(u.leastSigBits, 12);
    JoinedGroupsAreUuid(a, b, c, d, e);
    a + ['-'] + b + ['-'] + c + ['-'] + d + ['-'] + e
  }
}

=== FILE: migration.dfy ===
/** The legacy-key migration pass inside `loadCore`: keys are split into
    canonical (UUID-shaped), legacy player names and neither; if any legacy
    name is present, resolved names are re-filed under their UUID string,
    and unresolved names and keys of neither shape are dropped.  The
    resolver's answer is an input, so the pass is a pure function from a
    map to a map. */
module Migration {
  import opened Basics
  import opened KeyFormat
  import opened EntityStore

  /** What `UUIDFetcher.call()` produced: the UUID of every name it could
      resolve together with the iteration order of its response map, or an
      exception. */
  datatype Resolution = Answered(uuids: map<string, Uuid>, order: seq<string>) | Threw

  /** The response order visits each answered name exactly once. */
  ghost predicate WellFormed(res: Resolution)
  {
    res.Answered? ==> IsEnumeration(res.order, res.uuids.Keys)
  }

  /** The resolver answers with player names, never with a key that is
      already canonical. */
  ghost predicate AnswersNamesOnly(res: Resolution)
  {
    res.Answered? ==> forall n :: n in res.uuids ==> !IsUuidKey(n)
  }

  /** The text form of each answered UUID (`response.get(name).toString()`);
      every one is a canonical key. */
  function RenderAll(uuids: map<string, Uuid>): (ids: map<string, string>)
    ensures ids.Keys == uuids.Keys
    ensures forall n :: n in ids ==> ids[n] == UuidToString(uuids[n]) && IsUuidKey(ids[n])
  {
    map n | n in uuids :: UuidToString(uuids[n])
  }

  /** The three groups of the scan over the loaded keys. */
  datatype KeyClasses = KeyClasses(canonical: set<string>, legacy: set<string>, invalid: set<string>)

  /** The scan: every key falls in exactly one group, by its shape. */
  function Classify(keys: set<string>): (c: KeyClasses)
    ensures c.canonical + c.legacy + c.invalid == keys
    ensures c.canonical !! c.legacy && c.canonical !! c.invalid && c.legacy !! c.invalid
    ensures forall k :: k in c.canonical ==> IsUuidKey(k)
    ensures forall k :: k in c.legacy ==> IsLegacyName(k) && !IsUuidKey(k)
    ensures forall k :: k in c.invalid ==> !IsLegacyName(k) && !IsUuidKey(k)
  {
    KeyClasses(
      set k | k in keys && IsUuidKey(k),
      set k | k in keys && !IsUuidKey(k) && IsLegacyName(k),
      set k | k in keys && !IsUuidKey(k) && !IsLegacyName(k))
  }

  /** One step of the re-keying loop for a name present in the working
      map: out with the old key, in with the UUID string, and the entity
      learns its new id. */
  function Refile<S>(m: map<string, Entity<S>>, name: string, id: string): (r: map<string, Entity<S>>)
    requires name in m && IsUuidKey(id)
    ensures r.Keys == m.Keys - {name} + {id}
    ensures r[id] == m[name].(id := Some(id))
    ensures forall k :: k in r && k != id ==> r[k] == m[k]
  {
    (m - {name})[id := m[name].(id := Some(id))]
  }

  /** The re-keying loop over the response, first to last.  A name present
      in the working map is re-filed under its UUID string; a name not
      present is collected as unmatched (second component).
      Every entry of the result is either untouched or filed under a
      canonical key that its entity carries; no non-canonical name of the
      response survives; keys the response does not mention stay. */
  function Rekey<S>(data: map<string, Entity<S>>, ids: map<string, string>, order: seq<string>)
    : (r: (map<string, Entity<S>>, set<string>))
    requires forall i :: 0 <= i < |order| ==> order[i] in ids
    requires forall n :: n in ids ==> IsUuidKey(ids[n])
    ensures forall k :: k in r.0 ==> (k in data && r.0[k] == data[k]) || (IsUuidKey(k) && r.0[k].id == Some(k))
    ensures forall i :: 0 <= i < |order| && !IsUuidKey(order[i]) ==> order[i] !in r.0
    ensures forall k :: k in data && k !in order ==> k in r.0
    ensures forall n :: n in r.1 ==> n in order
    decreases |order|
  {
    if order == [] then (data, {})
    else
      var prefix := order[..|order| - 1];
      var prev := Rekey(data, ids, prefix);
      var name := order[|order| - 1];
      assert order == prefix + [name];
      if name in prev.0 then (Refile(prev.0, name, ids[name]), prev.1)
      else (prev.0, prev.1 + {name})
  }

  /** The migration pass of `loadCore` on the parsed map `data`. */
  function Migrate<S>(data: map<string, Entity<S>>, res: Resolution): (r: map<string, Entity<S>>)
    requires WellFormed(res)
    ensures Classify(data.Keys).legacy == {} ==> r == data
    ensures forall k :: k in r ==> (k in data && r[k] == data[k]) || (IsUuidKey(k) && r[k].id == Some(k))
    ensures res.Answered? && Classify(data.Keys).legacy != {} ==> forall k :: k in r ==> IsUuidKey(k)
    ensures forall k :: k in data && IsUuidKey(k) && (res.Answered? ==> k !in res.uuids) ==> k in r
  {
    var c := Classify(data.Keys);
    if c.legacy == {} then data
    else
      match res
      case Threw => data - c.invalid
      case Answered(uuids, order) =>
        assert forall i :: 0 <= i < |order| ==> order[i] in Elements(order);
        var ids := RenderAll(uuids);
        var missing := set n | n in c.legacy && n !in uuids;
        var rekeyed := Rekey(data, ids, order);
        var r := rekeyed.0 - (c.invalid + missing + rekeyed.1);
        r
  }

  /** `t` is the UUID string some name of `names` present in `data` is
      re-filed under. */
  ghost predicate IsTarget<S>(data: map<string, Entity<S>>, ids: map<string, string>, names: set<string>, t: string)
  {
    exists n :: n in names && n in data && n in ids && ids[n] == t
  }

  /** `r` is what the re-keying loop should leave after visiting exactly
      the names in `names`. */
  ghost predicate ExactAfter<S>(data: map<string, Entity<S>>, ids: map<string, string>, names: set<string>,
                                r: (map<string, Entity<S>>, set<string>))
  {
    && (forall k :: k in r.0 <==> (k in data && k !in names) || IsTarget(data, ids, names, k))
    && (forall n :: n in r.1 <==> n in names && n !in data)
    && (forall k :: k in data && k !in names && !IsTarget(data, ids, names, k) ==> k in r.0 && r.0[k] == data[k])
    && (forall t :: IsTarget(data, ids, names, t) ==> t in r.0 && RefiledFrom(data, ids, names, r.0, t))
  }

  /** The entry under target `t` is some visited name's entity, re-filed. */
  ghost predicate RefiledFrom<S>(data: map<string, Entity<S>>, ids: map<string, string>, names: set<string>,
                                 m: map<string, Entity<S>>, t: string)
    requires t in m
  {
    exists n :: n in names && n in data && n in ids && ids[n] == t && m[t] == data[n].(id := Some(t))
  }

  lemma RefileStep<S>(data: map<string, Entity<S>>, ids: map<string, string>, names: set<string>,
                      prev: (map<string, Entity<S>>, set<string>), name: string)
    requires ExactAfter(data, ids, names, prev)
    requires forall n :: n in names ==> !IsUuidKey(n)
    requires name !in names && name in data && name in ids && !IsUuidKey(name)
    requires forall n :: n in ids ==> IsUuidKey(ids[n])
    ensures ExactAfter(data, ids, names + {name},
                       (Refile(prev.0, name, ids[name]), prev.1))
  {
    var id := ids[name];
    var names' := names + {name};
    var m := Refile(prev.0, name, id);
    assert !IsTarget(data, ids, names, name);
    assert name in prev.0 && prev.0[name] == data[name];
    assert IsTarget(data, ids, names', id);
    forall t ensures IsTarget(data, ids, names', t) <==> IsTarget(data, ids, names, t) || t == id {
      if IsTarget(data, ids, names', t) && t != id {
        var n :| n in names' && n in data && n in ids && ids[n] == t;
        assert n != name;
      }
    }
    forall t | IsTarget(data, ids, names', t)
      ensures t in m && RefiledFrom(data, ids, names', m, t)
    {
      if t == id {
        assert m[t] == data[name].(id := Some(t));
      } else {
        assert RefiledFrom(data, ids, names, prev.0, t);
        var n :| n in names && n in data && n in ids && ids[n] == t && prev.0[t] == data[n].(id := Some(t));
        assert m[t] == prev.0[t];
      }
    }
  }

  lemma UnmatchedStep<S>(data: map<string, Entity<S>>, ids: map<string, string>, names: set<string>,
                         prev: (map<string, Entity<S>>, set<string>), name: string)
    requires ExactAfter(data, ids, names, prev)
    requires name !in data
    ensures ExactAfter(data, ids, names + {name}, (prev.0, prev.1 + {name}))
  {
    var names' := names + {name};
    forall t ensures IsTarget(data, ids, names', t) <==> IsTarget(data, ids, names, t) {
      if IsTarget(data, ids, names', t) {
        var n :| n in names' && n in data && n in ids && ids[n] == t;
        assert n in names;
      }
    }
    forall t | IsTarget(data, ids, names', t)
      ensures RefiledFrom(data, ids, names', prev.0, t)
    {
      assert RefiledFrom(data, ids, names, prev.0, t);
      var n :| n in names && n in data && n in ids && ids[n] == t && prev.0[t] == data[n].(id := Some(t));
      assert n in names';
    }
  }

  /** When the response holds distinct names only, the re-keying loop is
      exact: the keys it mentions are replaced by their targets, the names
      it mentions that are not in the data are the unmatched ones, other
      entries are untouched and each target holds a re-filed entity. */
  lemma {:induction false} RekeyExact<S>(data: map<string, Entity<S>>, ids: map<string, string>, order: seq<string>)
    requires forall i :: 0 <= i < |order| ==> order[i] in ids && !IsUuidKey(order[i])
    requires forall n :: n in ids ==> IsUuidKey(ids[n])
    requires forall i, j :: 0 <= i < j < |order| ==> order[i] != order[j]
    ensures ExactAfter(data, ids, Elements(order), Rekey(data, ids, order))
    decreases |order|
  {
    if order == [] {
      assert Elements(order) == {};
    } else {
      var prefix := order[..|order| - 1];
      var name := order[|order| - 1];
      assert order == prefix + [name];
      RekeyExact(data, ids, prefix);
      var prev := Rekey(data, ids, prefix);
      assert Elements(order) == Elements(prefix) + {name};
      assert name !in Elements(prefix);
      assert forall n :: n in Elements(prefix) ==> !IsUuidKey(n);
      if name in data {
        assert name in prev.0;
        RefileStep(data, ids, Elements(prefix), prev, name);
      } else {
        UnmatchedStep(data, ids, Elements(prefix), prev, name);
      }
    }
  }

  /** The final removal of a completed migration keeps exactly the
      canonical keys and the targets, given that it removes only
      non-canonical keys and every non-canonical key the loop left. */
  lemma FinalRemovalExact<S>(data: map<string, Entity<S>>, ids: map<string, string>, names: set<string>,
                             rekeyed: (map<string, Entity<S>>, set<string>), removed: set<string>)
    requires ExactAfter(data, ids, names, rekeyed)
    requires forall n :: n in ids ==> IsUuidKey(ids[n])
    requires forall n :: n in names ==> !IsUuidKey(n)
    requires forall k :: k in removed ==> !IsUuidKey(k)
    requires forall k :: k in data && k !in names && !IsUuidKey(k) ==> k in removed
    ensures var r := rekeyed.0 - removed;
            && (forall k :: k in r <==> (k in data && IsUuidKey(k)) || IsTarget(data, ids, names, k))
            && (forall k :: k in data && IsUuidKey(k) && !IsTarget(data, ids, names, k) ==> r[k] == data[k])
            && (forall t :: IsTarget(data, ids, names, t) ==> RefiledFrom(data, ids, names, r, t))
  {
    var r := rekeyed.0 - removed;
    forall t | IsTarget(data, ids, names, t)
      ensures t in r && RefiledFrom(data, ids, names, r, t)
    {
      assert RefiledFrom(data, ids, names, rekeyed.0, t);
      var n :| n in names && n in data && n in ids && ids[n] == t && rekeyed.0[t] == data[n].(id := Some(t));
      assert IsUuidKey(t);
    }
  }

  /** A completed migration on data holding legacy names, with a resolver
      that answers with names: the result holds exactly the canonical keys
      of the data and the UUID strings of the answered names present in
      the data; canonical entries nobody is re-filed onto are untouched, and
      each UUID string holds the entity of a name that resolved to it, with
      its id set to match. */
  lemma MigrateExact<S>(data: map<string, Entity<S>>, res: Resolution)
    requires WellFormed(res) && res.Answered? && AnswersNamesOnly(res)
    requires Classify(data.Keys).legacy != {}
    ensures var r := Migrate(data, res);
            var ids := RenderAll(res.uuids);
            var names := res.uuids.Keys;
            && (forall k :: k in r <==> (k in data && IsUuidKey(k)) || IsTarget(data, ids, names, k))
            && (forall k :: k in data && IsUuidKey(k) && !IsTarget(data, ids, names, k) ==> r[k] == data[k])
            && (forall t :: IsTarget(data, ids, names, t) ==> RefiledFrom(data, ids, names, r, t))
  {
    var c := Classify(data.Keys);
    var uuids, order := res.uuids, res.order;
    var ids := RenderAll(uuids);
    assert forall i :: 0 <= i < |order| ==> order[i] in Elements(order);
    RekeyExact(data, ids, order);
    var rekeyed := Rekey(data, ids, order);
    var missing := set n | n in c.legacy && n !in uuids;
    FinalRemovalExact(data, ids, uuids.Keys, rekeyed, c.invalid + missing + rekeyed.1);
  }

  /** A legacy name the resolver answered is gone from the result and its
      UUID string is present; when no other name of the data resolves to
      the same UUID, that entry is the name's entity with its id updated. */
  lemma ResolvedNameRekeyed<S>(data: map<string, Entity<S>>, res: Resolution, name: string)
    requires WellFormed(res) && res.Answered? && AnswersNamesOnly(res)
    requires name in Classify(data.Keys).legacy && name in res.uuids
    ensures var r := Migrate(data, res);
            var id := UuidToString(res.uuids[name]);
            && name !in r
            && id in r
            && r[id].id == Some(id)
            && ((forall m :: m in data && m in res.uuids && m != name ==> UuidToString(res.uuids[m]) != id)
                ==> r[id] == data[name].(id := Some(id)))
  {
    var r := Migrate(data, res);
    var ids := RenderAll(res.uuids);
    var id := ids[name];
    MigrateExact(data, res);
    assert IsTarget(data, ids, res.uuids.Keys, id);
    assert RefiledFrom(data, ids, res.uuids.Keys, r, id);
  }

  /** Once any legacy name is present, keys of neither shape are dropped,
      and so, when the resolver answered, are the names it did not
      answer. */
  lemma MigrationDrops<S>(data: map<string, Entity<S>>, res: Resolution)
    requires WellFormed(res)
    requires Classify(data.Keys).legacy != {}
    ensures forall k :: k in Classify(data.Keys).invalid ==> k !in Migrate(data, res)
    ensures res.Answered? ==>
              forall k :: k in Classify(data.Keys).legacy && k !in res.uuids ==> k !in Migrate(data, res)
  {
  }

  /** When the resolver throws, only the keys of neither shape are dropped:
      every other entry, legacy names included, stays as loaded. */
  lemma ThrowKeepsNames<S>(data: map<string, Entity<S>>)
    ensures var r := Migrate(data, Threw);
            var c := Classify(data.Keys);
            && r.Keys == data.Keys - (if c.legacy == {} then {} else c.invalid)
            && c.legacy <= r.Keys
            && (forall k :: k in r ==> r[k] == data[k])
  {
  }

  /** Migration is idempotent: after a completed migration no legacy name
      is left, so a second pass returns its input without consulting the
      resolver. */
  lemma MigrationIdempotent<S>(data: map<string, Entity<S>>, res: Resolution, again: Resolution)
    requires WellFormed(res) && res.Answered? && WellFormed(again)
    ensures Migrate(Migrate(data, res), again) == Migrate(data, res)
  {
    var r := Migrate(data, res);
    if Classify(data.Keys).legacy != {} {
      assert Classify(r.Keys).legacy == {};
    }
  }

  /** A result whose keys are the canonical keys of the data and the
      targets of `names`, when the data holds no canonical key and `names`
      is a single name of it, has that name's UUID string as its one key. */
  lemma SoleTargetKey<S>(data: map<string, Entity<S>>, ids: map<string, string>, names: set<string>,
                         r: map<string, Entity<S>>, name: string)
    requires names == {name} && name in data && name in ids
    requires forall k :: k in data ==> !IsUuidKey(k)
    requires forall k :: k in r <==> (k in data && IsUuidKey(k)) || IsTarget(data, ids, names, k)
    ensures r.Keys == {ids[name]}
  {
    assert IsTarget(data, ids, names, ids[name]);
    forall k ensures k in r <==> k == ids[name] {
      if k in r {
        assert IsTarget(data, ids, names, k);
      }
    }
  }

  /** When the data holds no canonical key and the resolver answers a
      single legacy name of it, only that name's entity survives, under its
      UUID string: names the resolver did not answer and keys of neither
      shape are dropped. */
  lemma OnlyResolvedNameSurvives<S>(data: map<string, Entity<S>>, name: string, res: Resolution)
    requires WellFormed(res) && res.Answered? && AnswersNamesOnly(res)
    requires res.uuids.Keys == {name}
    requires name in Classify(data.Keys).legacy
    requires forall k :: k in data ==> !IsUuidKey(k)
    ensures var id := UuidToString(res.uuids[name]);
            Migrate(data, res) == map[id := data[name].(id := Some(id))]
  {
    var r := Migrate(data, res);
    var ids := RenderAll(res.uuids);
    MigrateExact(data, res);
    ResolvedNameRekeyed(data, res, name);
    SoleTargetKey(data, ids, res.uuids.Keys, r, name);
  }

  /** The drop scenario: "alice" resolves and "bob!!" is of neither shape,
      so the result holds only alice's entity, under her UUID string. */
  lemma AliceKeptBobDropped<S>(a: Entity<S>, b: Entity<S>, u: Uuid, res: Resolution)
    requires res == Answered(map["alice" := u], ["alice"])
    ensures WellFormed(res)
    ensures var data := map["alice" := a, "bob!!" := b];
            var id := UuidToString(u);
            Migrate(data, res) == map[id := a.(id := Some(id))]
  {
    var data := map["alice" := a, "bob!!" := b];
    assert Elements(["alice"]) == {"alice"};
    assert IsLegacyName("alice") && !IsUuidKey("alice");
    assert !IsNameChar("bob!!"[3]) && !IsUuidKey("bob!!");
    assert data.Keys == {"alice", "bob!!"};
    OnlyResolvedNameSurvives(data, "alice", res);
  }
}

=== FILE: persistence.dfy ===
/** Loading a store from disc (`loadFromDisc` and `loadCore`).  Reading
    the file and parsing its JSON are inputs: the file is missing, cannot be
    read, or has content that the JSON parser turns into a map, into `null`
    (blank content) or into an exception. */
module Persistence {
  import opened Basics
  import opened Decimal
  import opened IdAllocator
  import opened EntityStore
  import opened Migration

  /** What the JSON parser makes of the file's content. */
  datatype Parse<S> = Parsed(data: map<string, Entity<S>>) | Blank | Malformed

  /** What reading the store's file yields. */
  datatype Disk<S> = Missing | Unreadable | Content(text: Parse<S>)

  /** The outcome of `loadCore` as the Java code writes it: a map, `null`, or
      an exception that escapes to the caller of `loadFromDisc`. */
  datatype CoreResult<S> = Returned(data: Option<map<string, Entity<S>>>) | Raised

  /** `loadCore` exactly as written.  `legacyKeyed` says the store holds
      players, whose file may still use name keys; on that path the parse
      is outside the `try`, so malformed content raises and blank content
      (parsed to `null`) fails on the key scan. */
  function LoadCoreAsWritten<S>(disk: Disk<S>, legacyKeyed: bool, res: Resolution): (r: CoreResult<S>)
    requires WellFormed(res)
    ensures r.Raised? <==> legacyKeyed && disk.Content? && !disk.text.Parsed?
    ensures disk.Missing? ==> r == Returned(Some(map[]))
    ensures disk.Unreadable? ==> r == Returned(None)
    ensures disk.Content? && !disk.text.Parsed? && !legacyKeyed ==> r == Returned(None)
    ensures disk.Content? && disk.text.Parsed? ==>
              r == Returned(Some(if legacyKeyed then Migrate(disk.text.data, res) else disk.text.data))
  {
    match disk
    case Missing => Returned(Some(map[]))
    case Unreadable => Returned(None)
    case Content(text) =>
      if legacyKeyed then
        match text
        case Parsed(data) => Returned(Some(Migrate(data, res)))
        case _ => Raised
      else
        match text
        case Parsed(data) => Returned(Some(data))
        case _ => Returned(None)
  }

  /** A players file holding malformed JSON makes the Java code's load raise
      instead of setting the file aside and reporting failure. */
  lemma MalformedPlayersFileRaises<S>(res: Resolution)
    requires WellFormed(res)
    ensures LoadCoreAsWritten<S>(Content(Malformed), true, res) == Raised
    ensures LoadCoreAsWritten<S>(Content(Malformed), false, res) == Returned(None)
  {
  }

  /** `loadCore` as intended: a missing file is an empty store; a file that
      cannot be read or does not parse to a map gives `None` (the bad file
      is set aside), on either path; a parsed players map goes through the
      migration pass, any other parsed map is returned as is. */
  function LoadCore<S>(disk: Disk<S>, legacyKeyed: bool, res: Resolution): (r: Option<map<string, Entity<S>>>)
    requires WellFormed(res)
    ensures disk.Missing? ==> r == Some(map[])
    ensures r.None? <==> disk.Unreadable? || (disk.Content? && !disk.text.Parsed?)
    ensures disk.Content? && disk.text.Parsed? && !legacyKeyed ==> r == Some(disk.text.data)
    ensures disk.Content? && disk.text.Parsed? && legacyKeyed ==> r == Some(Migrate(disk.text.data, res))
  {
    match disk
    case Missing => Some(map[])
    case Unreadable => None
    case Content(text) =>
      match text
      case Parsed(data) => if legacyKeyed then Some(Migrate(data, res)) else Some(data)
      case _ => None
  }

  /** The correction touches only the path that raised: wherever the
      Java code's `loadCore` returns, it returns what the intended one does. */
  lemma LoadCoreAgreesUnlessRaised<S>(disk: Disk<S>, legacyKeyed: bool, res: Resolution)
    requires WellFormed(res)
    ensures LoadCoreAsWritten(disk, legacyKeyed, res).Returned? ==>
              LoadCoreAsWritten(disk, legacyKeyed, res).data == LoadCore(disk, legacyKeyed, res)
    ensures LoadCoreAsWritten(disk, legacyKeyed, res).Raised? <==>
              legacyKeyed && disk.Content? && !disk.text.Parsed?
  {
  }

  /** `loadFromDisc` on the map `loadCore` produced, with `order` the
      iteration order of that map: `None` fails and leaves the store as it
      was; a map replaces both structures and `fillIds` recomputes ids and
      the counter. */
  function LoadFromDisc<S(==)>(s: Store<S>, loaded: Option<map<string, Entity<S>>>, order: seq<string>)
    : (r: Reply<S, bool>)
    requires loaded.Some? ==> IsEnumeration(order, loaded.value.Keys)
    ensures loaded.None? ==> r.store == s && !r.value
    ensures loaded.Some? ==>
              && r.value
              && Valid(r.store)
              && r.store.creative == s.creative
              && r.store.id2entity.Keys == loaded.value.Keys
              && (forall k :: k in loaded.value ==> r.store.id2entity[k] == loaded.value[k].(id := Some(k)))
              && r.store.entities == r.store.id2entity.Values
              && (forall k :: k in loaded.value && ParseNat(k).Some? ==> r.store.nextId >= ParseNat(k).value)
              && r.store.nextId == CounterAfter(1, order)
              && (r.store.nextId == 1
                  || exists k :: k in loaded.value && ParseNat(k).Some? && r.store.nextId == ParseNat(k).value + 1)
  {
    match loaded
    case None => Reply(s, false)
    case Some(m) => Reply(FillIds(Store(m.Values, m, s.creative, s.nextId), order), true)
  }

  /** Saving and loading back restores exactly what was saved: the entities
      whose `shouldBeSaved()` holds, under their own keys.  For a players
      store this needs the saved keys to hold no legacy name, which is the
      case once they have been migrated.  The file's content is taken to
      parse back to exactly the map that was written: Gson's write-then-read
      is assumed to be the identity on entities. */
  lemma SaveThenLoad<S>(s: Store<S>, t: Store<S>, legacyKeyed: bool, res: Resolution, order: seq<string>)
    requires Valid(s) && WellFormed(res)
    requires IsEnumeration(order, SaveSnapshot(s).Keys)
    requires legacyKeyed ==> Classify(SaveSnapshot(s).Keys).legacy == {}
    ensures var saved := SaveSnapshot(s);
            var loaded := LoadCore(Content(Parsed(saved)), legacyKeyed, res);
            var r := LoadFromDisc(t, loaded, order);
            && loaded == Some(saved)
            && r.value
            && r.store.id2entity == saved
            && r.store.entities == set e | e in s.entities && e.shouldBeSaved
  {
    var saved := SaveSnapshot(s);
    var r := LoadFromDisc(t, Some(saved), order);
    assert r.store.id2entity == saved;
    var kept := set e | e in s.entities && e.shouldBeSaved;
    forall e | e in kept ensures e in r.store.entities {
      assert e.id.Some? && saved[e.id.value] == e;
    }
  }
}
